=== FILE: README.md ===
# Schema-validated CSV loader, modelled in Dafny

The program is a validation gate for a CSV file of financial transactions.
A `Data` object holds a file path and an expected structure. The expected
structure is an insertion-ordered dict from column name to a pandas dtype
string such as `"object"` or `"float64"`. `load_and_validate` runs three
steps in order and stops at the first one that raises:

1. `check_file_exists` raises `FileNotFoundError` when nothing is at the path.
2. `read_csv` parses the file with pandas and raises a `ValueError` when the
   table is empty. A blanket `except Exception` re-raises anything raised
   inside it, that `ValueError` included, as an `IOError`.
3. `validate_structure` compares the table's column set with the dict's key
   set. When they differ it raises a `ValueError`. The message starts
   generic, is overwritten when columns are missing, and is overwritten again
   when columns are extra, so extra columns win. When the sets are equal it
   walks the dict's items in order. It raises a `TypeError` for the first
   column whose dtype string differs from the expected one.

The model is purely functional:

- `results.dfy` (`Results`): `Option` and `Outcome` (`Pass | Fail(error)`) in place of exceptions.
- `schema.dfy` (`Schema`): the expected structure is a sequence of
  `Entry(name, dtype)` with distinct names. A table is its column-to-dtype
  map plus its row count, because the check only reads `set(columns)` and
  `data[col].dtype`.
- `validation.dfy` (`Validation`): `validate_structure`, and lemmas about
  the order of the dtype check and about its map-level meaning.
- `loader.dfy` (`Loader`): the `Data` object as an immutable record, and
  each method as a function from the object to the object after the call
  and the call's outcome. What the filesystem and `pd.read_csv` answer for
  the path is an `Environment` parameter.

Three points of the code's behaviour worth noting:

- An empty table is not a separate error kind. It surfaces as the read
  failure `ReadFailed(path, EmptyTable)`, because the `ValueError` raised at
  main.py:32 is caught at main.py:33 and re-raised as an `IOError`.
- The reported dtype error depends on the order of the expected structure.
  Only the dtype check's pass/fail verdict (`VerdictIgnoresOrder`) and
  the missing- and extra-column errors are independent of that order.
- The existence check accepts any existing path, directories included.
  The empty path never exists, so it always fails with `FileNotFound`.

## Model

| member | source | states |
|---|---|---|
| Schema.AsMap | main.py:39 | The expected structure read as a dict: the key set is exactly the set of entry names, and each key maps to its own entry's dtype, since keys are distinct. |
| Schema.Keys | main.py:39 | The dict's key set. It carries no contract of its own; `Schema.AsMap` states that its key set is exactly this set. |
| Validation.ColumnSetError | main.py:44-48 | The message chosen in the column-set branch, where the last assignment wins. It carries no contract of its own; the ensures of `Validation.ValidateStructure` state its behaviour: extra columns beat missing ones, and the generic message is never raised. |
| Schema.Table.IsEmpty | main.py:31 | pandas' `empty`: either axis has length zero. It carries no contract of its own; `Loader.ReadCsv` states that an empty parsed table is a read failure. |
| Schema.Table.Columns | main.py:38 | The table's column set. It carries no contract of its own; `Validation.ValidateStructure` states how it is compared with `Schema.Keys`. |
| Validation.MismatchOf | main.py:54-57 | The TypeError raised for a failing entry: its column, the expected dtype and the actual one. It carries no contract of its own; `Validation.FirstMismatchIsReported` and `Validation.ReportedMismatchIsFirst` state when it is raised. |
| Validation.CheckTypes | main.py:51-57 | The ordered dtype loop: it passes exactly when every entry's column has exactly the expected dtype string, with no coercion. A failure is a TypeMismatch on a schema column, carrying that column's actual dtype, which differs from the expected one. Its precondition is that every key names a table column, so the lookup at line 52 cannot fail. |
| Validation.ValidateStructure | main.py:36-59 | Success holds exactly when the column sets are equal and every column's dtype matches exactly. The generic message of line 44 is never the one raised. Extra columns are reported as exactly actual − expected, whether or not columns are also missing. With no extra columns, missing ones are reported as exactly expected − actual. A dtype error occurs only when the sets are equal, and then the result is the ordered dtype loop's result. |
| Validation.ReportedMismatchIsFirst | main.py:51-57 | A reported dtype error names the first entry, in dict order, that fails to match. Every earlier entry matched. |
| Validation.FirstMismatchIsReported | main.py:51-57 | Conversely, whatever entry is the first one to fail is exactly the error reported, with its name, expected dtype and actual dtype. |
| Validation.LaterEntriesNotExamined | main.py:51-57 | Once an entry fails, the entries after it are never examined: appending any further entries naming table columns leaves the outcome unchanged. |
| Validation.ValidIffSameMapping | main.py:38-59 | Validation passes exactly when the table's column-to-dtype map equals the expected structure read as a map. |
| Validation.VerdictIgnoresOrder | main.py:38-53 | Two expected structures with the same items in different orders give the same pass/fail verdict on every table. |
| Loader.PathExists | main.py:25 | `os.path.exists`: false for the empty path, otherwise the environment's answer. It carries no contract of its own; the ensures of `Loader.CheckFileExists` state its behaviour. |
| Loader.CheckFileExists | main.py:24-26 | It raises exactly when nothing exists at the path, and the error names that path. The empty path never exists, whatever the filesystem holds. |
| Loader.ReadCsv | main.py:28-34 | A read succeeds exactly when the parser returns a non-empty table. Any failure is a read failure naming the path. An empty table is a read failure with the empty-table cause, not a separate error. A parsed table, even an empty one, is stored in the object. When the parser raises, the object is unchanged. |
| Loader.ValidateData | main.py:36-59 | Called only once a table has been read. It returns an outcome and no new object, so the object is left as it was. It passes exactly when that table's column-to-dtype map equals the expected structure. Its failures are structure errors, never the generic message. |
| Loader.LoadAndValidate | main.py:61-64 | Steps run in order and the first failure escapes unchanged. A missing file fails with FileNotFound and leaves the object untouched, whatever the parser would have said. A parser exception fails as a read failure before validation and leaves the object untouched. A parsed table, even an empty one, is left in the object, and nothing else about the object changes. An empty table fails as a read failure whatever its columns. Otherwise the outcome is the structure check's. The whole pipeline passes exactly when the file exists, parses into a non-empty table, and that table's column-to-dtype map equals the expected structure. |
| Loader.RerunIsIdempotent | main.py:61-64 | Running the pipeline again on the same file, from the object the first run left, gives the same outcome and the same object. |
| Loader.OutcomeIgnoresPriorTable | main.py:28-34 | A table left in the object by an earlier run never affects a run's outcome, because validation only reads a table this run has just stored. |

## Left out

- The filesystem and pandas are not modelled. `os.path.exists` becomes `Loader.PathExists`: the path is non-empty and the environment's boolean answer holds. `pd.read_csv` becomes either a parsed table or "raises". pandas' dtype inference is replaced by opaque dtype strings.
- Exception messages are not modelled. The exact message text and Python's rendering of sets are replaced by error variants that carry the sets, the column and the dtypes. A read failure carries its cause instead of the wrapped message text. The exception classes are named in each variant's doc comment.
- The success `print` is not modelled. Success is `Pass`.
- `main()` with its hard-coded path is not modelled, and neither is the `EXPECTED_STRUCTURE` literal. The expected structure is a parameter of the model.
- Duplicate CSV headers are not modelled. pandas renames them, so a table's column names are taken as distinct, which the map representation enforces.
- The filesystem's answer is not tied to the path beyond the empty path. `fileExists` is a free boolean, so the model allows runs in which a non-empty path exists or not as the caller chooses.
- Loader.ValidateData: requires a table to have been read. Calling `validate_structure` before any read raises an `AttributeError` at main.py:38, which is not modelled; `load_and_validate` never reaches that case.
- Exceptions outside `Exception` (such as `KeyboardInterrupt`) escape `read_csv` unwrapped; the model has no such exceptions.
- Files that change between runs are not modelled. Both runs compared by `Loader.RerunIsIdempotent` see the same environment, because reads are assumed deterministic.

=== FILE: loader.dfy ===
/**
 * The `Data` object and its fail-fast pipeline: existence check, read,
 * structure check. The filesystem and the CSV parser are not modelled; what
 * they answer for the object's path is an `Environment` parameter.
 */
module Loader {

  import opened Results
  import opened Schema
  import opened Validation

  /** What `pd.read_csv` does with the file: returns a table, or raises an `Exception`. */
  datatype ParseOutcome = Parsed(table: Table) | Raises

  /**
   * What the outside world answers for the object's path: whether the
   * filesystem holds an entry there, and what `pd.read_csv` does with it.
   */
  datatype Environment = Environment(fileExists: bool, parse: ParseOutcome)

  /** `os.path.exists`: false for the empty path, whatever the filesystem holds. */
  predicate PathExists(path: string, env: Environment) {
    path != "" && env.fileExists
  }

  /** The exception `read_csv` catches and re-raises as an IOError. */
  datatype ReadCause =
      /** Whatever the parser raised. */
    | ParserRaised
      /** The ValueError raised for a parsed table that is empty. */
    | EmptyTable

  /** What `load_and_validate` lets escape. */
  datatype LoadError =
      /** FileNotFoundError naming the path. */
    | FileNotFound(path: string)
      /** IOError naming the path and wrapping the cause. */
    | ReadFailed(path: string, cause: ReadCause)
      /** The ValueError or TypeError of `validate_structure`, unchanged. */
    | Invalid(error: StructureError)

  /** The object's fields; the constructor leaves `data` as `None` until a read assigns it. */
  datatype Data = Data(filePath: string, expectedStructure: ExpectedStructure, data: Option<Table>)

  /** The object after a method call, and what the call did: returned or raised. */
  datatype Step = Step(state: Data, outcome: Outcome<LoadError>)

  /** `check_file_exists`: raise when nothing exists at the path. */
  function CheckFileExists(d: Data, env: Environment): (r: Outcome<LoadError>)
    ensures r.Pass? <==> d.filePath != "" && env.fileExists
    ensures r.Fail? ==> r.error == FileNotFound(d.filePath)
    ensures d.filePath == "" ==> r == Fail(FileNotFound(""))
  {
    if !PathExists(d.filePath, env) then Fail(FileNotFound(d.filePath)) else Pass
  }

  /**
   * `read_csv`: the `try` block assigns the parsed table to `data` and raises
   * a ValueError when it is empty; the blanket `except` turns whatever was
   * raised, that ValueError included, into an IOError.
   */
  function ReadCsv(d: Data, env: Environment): (r: Step)
    ensures r.state.filePath == d.filePath && r.state.expectedStructure == d.expectedStructure
    ensures r.outcome.Pass? <==> env.parse.Parsed? && !env.parse.table.IsEmpty()
    ensures r.outcome.Fail? ==> r.outcome.error.ReadFailed? && r.outcome.error.path == d.filePath
    ensures env.parse.Parsed? ==> r.state.data == Some(env.parse.table)
    ensures env.parse.Parsed? && env.parse.table.IsEmpty() ==>
              r.outcome == Fail(ReadFailed(d.filePath, EmptyTable))
    ensures env.parse.Raises? ==> r == Step(d, Fail(ReadFailed(d.filePath, ParserRaised)))
  {
    match env.parse
    case Raises => Step(d, Fail(ReadFailed(d.filePath, ParserRaised)))
    case Parsed(table) =>
      var d' := d.(data := Some(table));
      if table.IsEmpty() then Step(d', Fail(ReadFailed(d.filePath, EmptyTable)))
      else Step(d', Pass)
  }

  /** `validate_structure` on the object's table, which a read must have assigned. */
  function ValidateData(d: Data): (r: Outcome<LoadError>)
    requires d.data.Some?
    ensures r.Pass? <==> d.data.value.dtypes == AsMap(d.expectedStructure)
    ensures r.Fail? ==> r.error.Invalid? && r.error.error != StructureMismatch
  {
    match ValidateStructure(d.data.value, d.expectedStructure)
    case Pass => Pass
    case Fail(e) => Fail(Invalid(e))
  }

  /**
   * `load_and_validate`: the three steps in order; the first one to raise
   * ends the run and its exception escapes unchanged.
   */
  function LoadAndValidate(d: Data, env: Environment): (r: Step)
    ensures r.state.filePath == d.filePath && r.state.expectedStructure == d.expectedStructure
    ensures !PathExists(d.filePath, env) ==> r == Step(d, Fail(FileNotFound(d.filePath)))
    ensures PathExists(d.filePath, env) && env.parse.Raises? ==>
              r == Step(d, Fail(ReadFailed(d.filePath, ParserRaised)))
    ensures PathExists(d.filePath, env) && env.parse.Parsed? ==>
              r.state == d.(data := Some(env.parse.table))
    ensures PathExists(d.filePath, env) && env.parse.Parsed? && env.parse.table.IsEmpty() ==>
              r.outcome == Fail(ReadFailed(d.filePath, EmptyTable))
    ensures PathExists(d.filePath, env) && env.parse.Parsed? && !env.parse.table.IsEmpty() ==>
              match ValidateStructure(env.parse.table, d.expectedStructure)
              case Pass => r.outcome.Pass?
              case Fail(e) => r.outcome == Fail(Invalid(e))
    ensures r.outcome.Pass? <==>
              PathExists(d.filePath, env) && env.parse.Parsed? && !env.parse.table.IsEmpty()
              && env.parse.table.dtypes == AsMap(d.expectedStructure)
  {
    match CheckFileExists(d, env)
    case Fail(e) => Step(d, Fail(e))
    case Pass =>
      var read := ReadCsv(d, env);
      if read.outcome.Fail? then read
      else Step(read.state, ValidateData(read.state))
  }

  /**
   * Running the pipeline again on the same file gives the same outcome and
   * leaves the object as the first run left it.
   */
  lemma RerunIsIdempotent(d: Data, env: Environment)
    ensures LoadAndValidate(LoadAndValidate(d, env).state, env) == LoadAndValidate(d, env)
  {
  }

  /** The outcome of a run never depends on a table left behind by an earlier run. */
  lemma OutcomeIgnoresPriorTable(d: Data, env: Environment, prior: Option<Table>)
    ensures LoadAndValidate(d.(data := prior), env).outcome == LoadAndValidate(d, env).outcome
  {
  }
}

=== FILE: results.dfy ===
/** Failure-carrying values that stand in for the exceptions the loader raises. */
module Results {

  /** A value that may be absent, such as the loader's table before `read_csv` has run. */
  datatype Option<+T> = None | Some(value: T)

  /** The outcome of a step that returns nothing on success and raises on failure. */
  datatype Outcome<+E> = Pass | Fail(error: E)
}

=== FILE: schema.dfy ===
/**
 * The two inputs of the structure check: the expected structure (an
 * insertion-ordered dict from column name to dtype label) and the parsed
 * table, seen through what the check reads of it.
 */
module Schema {

  type ColumnName = string

  /** A pandas dtype rendered as a string (`"object"`, `"float64"`, ...), compared verbatim. */
  type TypeLabel = string

  /** One `name: label` item of the expected structure. */
  datatype Entry = Entry(name: ColumnName, dtype: TypeLabel)

  predicate UniqueNames(entries: seq<Entry>) {
    forall i, j | 0 <= i < j < |entries| :: entries[i].name != entries[j].name
  }

  /** A Python dict literal: its items in insertion order, no key twice. */
  type ExpectedStructure = s: seq<Entry> | UniqueNames(s) witness []

  /** The dict's `keys()` as a set. */
  function Keys(s: seq<Entry>): set<ColumnName> {
    set i | 0 <= i < |s| :: s[i].name
  }

  lemma KeysOfConcat(p: seq<Entry>, q: seq<Entry>)
    ensures Keys(p + q) == Keys(p) + Keys(q)
  {
    forall n | n in Keys(p + q)
      ensures n in Keys(p) + Keys(q)
    {
      var k :| 0 <= k < |p + q| && (p + q)[k].name == n;
      if k >= |p| {
        assert q[k - |p|].name == n;
      }
    }
    forall n | n in Keys(p) + Keys(q)
      ensures n in Keys(p + q)
    {
      if n in Keys(q) {
        var k :| 0 <= k < |q| && q[k].name == n;
        assert (p + q)[|p| + k] == q[k];
      } else {
        var k :| 0 <= k < |p| && p[k].name == n;
        assert (p + q)[k] == p[k];
      }
    }
  }

  /** The dict viewed as a finite map: each key to its label. */
  function AsMap(s: ExpectedStructure): (m: map<ColumnName, TypeLabel>)
    ensures m.Keys == Keys(s)
    ensures forall i | 0 <= i < |s| :: m[s[i].name] == s[i].dtype
    decreases |s|
  {
    if |s| == 0 then map[]
    else
      var init := s[..|s| - 1];
      var last := s[|s| - 1];
      assert Keys(s) == Keys(init) + {last.name} by {
        assert forall i | 0 <= i < |init| :: init[i] == s[i];
      }
      AsMap(init)[last.name := last.dtype]
  }

  /**
   * A parsed table. Only the column names (distinct once pandas has read
   * them), each column's dtype label and the number of data rows matter here.
   */
  datatype Table = Table(dtypes: map<ColumnName, TypeLabel>, rows: nat) {

    function Columns(): set<ColumnName> {
      dtypes.Keys
    }

    /** pandas `DataFrame.empty`: true when either axis has length zero. */
    predicate IsEmpty() {
      |dtypes| == 0 || rows == 0
    }
  }
}

=== FILE: validation.dfy ===
/**
 * `Data.validate_structure`: the column-set check with its missing/extra
 * precedence, then the ordered, fail-fast dtype check.
 */
module Validation {

  import opened Results
  import opened Schema

  /** What `validate_structure` raises. */
  datatype StructureError =
      /** The generic ValueError message the column-set branch starts from. */
    | StructureMismatch
      /** ValueError naming the expected columns the table lacks. */
    | MissingColumns(missing: set<ColumnName>)
      /** ValueError naming the table columns the structure does not expect. */
    | ExtraColumns(extra: set<ColumnName>)
      /** TypeError naming the column, the expected dtype and the one found. */
    | TypeMismatch(column: ColumnName, expected: TypeLabel, actual: TypeLabel)

  /** The table has the entry's column, and its dtype string equals the expected one exactly. */
  predicate Matches(t: Table, e: Entry) {
    e.name in t.dtypes && t.dtypes[e.name] == e.dtype
  }

  /** Entry `i` fails to match, and every entry before it matches. */
  predicate IsFirstMismatch(t: Table, s: seq<Entry>, i: int) {
    && 0 <= i < |s|
    && !Matches(t, s[i])
    && forall j | 0 <= j < i :: Matches(t, s[j])
  }

  /** The error an entry that fails to match is reported with. */
  function MismatchOf(t: Table, e: Entry): StructureError
    requires e.name in t.dtypes
  {
    TypeMismatch(e.name, e.dtype, t.dtypes[e.name])
  }

  /**
   * The error of the column-set branch. The source assigns its message three
   * times in a row (generic, then missing, then extra), so the last
   * assignment that fires wins: extra columns take precedence over missing
   * ones, and the generic message survives only when neither set is non-empty.
   */
  function ColumnSetError(missing: set<ColumnName>, extra: set<ColumnName>): StructureError {
    if extra != {} then ExtraColumns(extra)
    else if missing != {} then MissingColumns(missing)
    else StructureMismatch
  }

  /**
   * The loop over the structure's items: the first entry whose column dtype
   * differs from the expected one raises, and nothing after it is looked at.
   * Every key must name a column of the table, or the lookup would fail.
   */
  function CheckTypes(t: Table, s: seq<Entry>): (r: Outcome<StructureError>)
    requires Keys(s) <= t.Columns()
    ensures r.Pass? <==> forall i | 0 <= i < |s| :: Matches(t, s[i])
    ensures r.Fail? ==> r.error.TypeMismatch? && r.error.column in Keys(s)
    ensures r.Fail? ==> r.error.column in t.dtypes && t.dtypes[r.error.column] == r.error.actual
                        && r.error.actual != r.error.expected
    decreases |s|
  {
    if |s| == 0 then Pass
    else
      assert s[0].name in Keys(s);
      assert Keys(s[1..]) <= Keys(s) by {
        assert forall i | 0 <= i < |s[1..]| :: s[1..][i] == s[i + 1];
      }
      if !Matches(t, s[0]) then Fail(MismatchOf(t, s[0]))
      else
        var rest := CheckTypes(t, s[1..]);
        assert forall i | 1 <= i < |s| :: s[i] == s[1..][i - 1];
        rest
  }

  /**
   * `validate_structure`: compare the column sets first; only when they are
   * equal walk the structure's items in order.
   */
  function ValidateStructure(t: Table, s: ExpectedStructure): (r: Outcome<StructureError>)
    ensures r.Pass? <==> t.Columns() == Keys(s) && forall i | 0 <= i < |s| :: Matches(t, s[i])
    ensures r != Fail(StructureMismatch)
    ensures t.Columns() - Keys(s) != {} ==> r == Fail(ExtraColumns(t.Columns() - Keys(s)))
    ensures t.Columns() - Keys(s) == {} && Keys(s) - t.Columns() != {} ==>
              r == Fail(MissingColumns(Keys(s) - t.Columns()))
    ensures r.Fail? && r.error.TypeMismatch? ==> t.Columns() == Keys(s)
    ensures t.Columns() == Keys(s) ==> r == CheckTypes(t, s)
  {
    var actual := t.Columns();
    var expected := Keys(s);
    if actual != expected then
      var missing := expected - actual;
      var extra := actual - expected;
      Fail(ColumnSetError(missing, extra))
    else
      CheckTypes(t, s)
  }

  /** A reported dtype error names the first entry that fails to match, and every earlier entry matched. */
  lemma {:induction false} ReportedMismatchIsFirst(t: Table, s: seq<Entry>)
    requires Keys(s) <= t.Columns()
    ensures CheckTypes(t, s).Fail? ==>
              exists i :: IsFirstMismatch(t, s, i) && CheckTypes(t, s).error == MismatchOf(t, s[i])
    decreases |s|
  {
    if |s| > 0 && CheckTypes(t, s).Fail? {
      if !Matches(t, s[0]) {
        assert IsFirstMismatch(t, s, 0);
      } else {
        assert Keys(s[1..]) <= Keys(s) by {
          assert forall i | 0 <= i < |s[1..]| :: s[1..][i] == s[i + 1];
        }
        ReportedMismatchIsFirst(t, s[1..]);
        var i :| IsFirstMismatch(t, s[1..], i) && CheckTypes(t, s[1..]).error == MismatchOf(t, s[1..][i]);
        assert IsFirstMismatch(t, s, i + 1);
      }
    }
  }

  /** Conversely, whenever some entry is the first to fail, that entry is the one reported. */
  lemma {:induction false} FirstMismatchIsReported(t: Table, s: seq<Entry>, i: int)
    requires Keys(s) <= t.Columns()
    requires IsFirstMismatch(t, s, i)
    ensures s[i].name in t.dtypes
    ensures CheckTypes(t, s) == Fail(MismatchOf(t, s[i]))
    decreases |s|
  {
    assert s[i].name in Keys(s);
    if i > 0 {
      assert Keys(s[1..]) <= Keys(s) by {
        assert forall k | 0 <= k < |s[1..]| :: s[1..][k] == s[k + 1];
      }
      assert IsFirstMismatch(t, s[1..], i - 1);
      FirstMismatchIsReported(t, s[1..], i - 1);
    }
  }

  /** Once an entry fails, the entries after it are never examined: appending more changes nothing. */
  lemma {:induction false} LaterEntriesNotExamined(t: Table, p: seq<Entry>, q: seq<Entry>)
    requires Keys(p) <= t.Columns() && Keys(q) <= t.Columns()
    requires CheckTypes(t, p).Fail?
    ensures Keys(p + q) <= t.Columns()
    ensures CheckTypes(t, p + q) == CheckTypes(t, p)
    decreases |p|
  {
    KeysOfConcat(p, q);
    if Matches(t, p[0]) {
      assert Keys(p[1..]) <= Keys(p) by {
        assert forall k | 0 <= k < |p[1..]| :: p[1..][k] == p[k + 1];
      }
      assert (p + q)[1..] == p[1..] + q;
      LaterEntriesNotExamined(t, p[1..], q);
    }
  }

  /**
   * The dict-level reading of success: the structure check passes exactly
   * when the table's column-to-dtype map is the expected structure as a map.
   */
  lemma ValidIffSameMapping(t: Table, s: ExpectedStructure)
    ensures ValidateStructure(t, s).Pass? <==> t.dtypes == AsMap(s)
  {
  }

  /**
   * Whether validation passes depends on the expected structure only as a
   * map: reordering its items can change which mismatch is reported, never
   * the verdict.
   */
  lemma VerdictIgnoresOrder(t: Table, s1: ExpectedStructure, s2: ExpectedStructure)
    requires AsMap(s1) == AsMap(s2)
    ensures ValidateStructure(t, s1).Pass? == ValidateStructure(t, s2).Pass?
  {
  }
}
